=== FILE: README.md ===
# CPAP cost-share estimator: a Dafny model of the cost-share engine

`FSLOGIC_UPLOAD.py` estimates how the bill for a CPAP setup is split between
the patient and the insurer. The setup covers one-time supplies and then a
number of monthly rentals. This project models the engine behind that
estimate and proves properties of the model:

- **Allocator** (`apply_cost_share`, module `CostShare`). One charge is
  split in a fixed order. The remaining deductible absorbs what it can. The
  patient then pays the coinsurance rate on the rest, capped by the remaining
  out-of-pocket (OOP) balance. The insurer pays whatever is left. Only the
  two shares are rounded to the cent; the returned balances are not.
- **Setup pass** (module `SetupCharges`). Every setup row goes through the
  allocator in table order. Each row uses the balances the previous row left.
  The shares of the rows marked as a rental's first month are also collected.
- **Monthly schedule** (module `RentalSchedule`). Period 1 is the setup
  month. For each later period `m`, the period's calendar month is
  `(eff + m - 2) % 12 + 1`. In the reset month both balances first return to
  the plan's full deductible and OOP maximum. The combined monthly charge is
  then allocated once.
- **Estimate and totals** (module `Estimator`). This covers the default fee
  schedule and the setup rows built from it. It also covers the patient and
  insurer totals, which count the setup month once, and the "upfront" figure,
  which ignores insurance.

Money is exact (`real`). Python's `round(x, 2)` is modelled as rounding the
exact value to the nearest cent, with ties going to the even cent
(`Money.Round2`). The coinsurance rate is an explicit fraction (`Plan.rate`).
The test `"(1st Month)" in description` is a `firstMonth` flag on each
setup row.

Each operation is a pure function. `SetupLoop`, `ScheduleLoop` and
`ComputeEstimate` are the imperative loops as the program writes them,
mutating one running pair of balances. Each is proved equal to its
functional definition.

Four quirks of the program are kept as written:

- The combined monthly charge and the number of months come from the
  default fee schedule, not from the edited setup rows.
- `supply_total` subtracts that default monthly charge from the sum of the
  edited rows.
- The benefit-year reset restores the full totals and ignores the "already
  met" amounts.
- The balances carried from charge to charge are never rounded.

The allocator, the setup pass and the schedule validate nothing: every
amount, balance and rate is used as given, and none of them rejects an input.
Only the input widgets bound the inputs, and only partly. The sidebar keeps
the plan amounts from going below zero and the coinsurance percentage within
0..100 (lines 20-24). In the setup editor, the price inputs for the A7030,
A7031, A4604 and E0601 rows have their default price as a minimum (lines 84,
99, 115 and 130). The price input for every other row has no minimum
(line 134), so a negative price can reach the setup pass. That widget
layer is not modelled, so the model has no error path. `Plan.Valid` records
the widgets' bounds on the plan, and every property that needs sane inputs
(non-negative prices, a rate in [0, 1]) states that premise itself.

The deductible and the out-of-pocket balance are consumed independently:
what the patient pays towards the deductible is never taken off the OOP
balance (lines 44-52). So an exhausted OOP balance alone does not make the
insurer pay the whole charge while deductible remains
(`CostShare.ExhaustedOopStillPaysDeductible`). The OOP cap holds only once
the deductible is met as well (`RentalSchedule.OopCapHolds`).

## Model

| member | source | states |
|---|---|---|
| `Money.RoundHalfEven` | FSLOGIC_UPLOAD.py:55 | the result is an integer no farther from `y` than any other integer; an exact tie goes to the even one; an integer `y` is returned unchanged |
| `Money.Round2` | FSLOGIC_UPLOAD.py:55 | `round(x, 2)`: the result is a whole number of cents within half a cent of `x`; a non-negative input gives a non-negative result; a whole-cent input is unchanged |
| `CostShare.Coinsurance` | FSLOGIC_UPLOAD.py:49 | `min(rest * rate, oop_rem)`: the coinsurance share is at most the OOP balance and at most the rate applied to the remainder, and it equals one of the two; with sane inputs it lies between zero and the remainder |
| `CostShare.DeductiblePart` | FSLOGIC_UPLOAD.py:44-46 | a positive deductible absorbs the whole charge or all that is left of it, whichever is less. A non-negative charge never takes it below zero. A used-up deductible absorbs nothing |
| `CostShare.Allocate` | FSLOGIC_UPLOAD.py:42-54 | exact split, before rounding. For a non-negative charge, conservation (patient + insurer = amount). A negative charge never reaches the insurer (share 0) and never touches the OOP balance. Every patient dollar comes off one of the two balances. Deductible first: the deductible always drops by exactly its part of the charge (`min(amount, ded_rem)` while it is positive), and a charge the deductible covers is the patient's alone with OOP untouched. While OOP balance remains, the coinsurance share is the smaller of the rate times the remainder and the OOP balance, and the OOP balance drops by exactly that share (to zero when the cap binds). An exhausted OOP balance leaves the whole post-deductible remainder to the insurer. A zero charge changes nothing. With sane inputs, shares are non-negative and balances stay non-negative and only go down |
| `CostShare.ApplyCostShare` | FSLOGIC_UPLOAD.py:42-55 | the program's function. Balances equal the exact allocator's (not rounded). Both shares are whole cents within half a cent of the exact shares, and for a non-negative charge they add up to the charge within one cent. A charge the deductible covers is `(round(amount), 0)`. A zero charge changes nothing. With both balances used up the insurer pays the rounded charge. Shares are non-negative for sane inputs |
| `CostShare.MaskExample` | FSLOGIC_UPLOAD.py:42-55 | the full face mask (142.03) at 20% with the deductible met and 4000 OOP left: patient 28.41, insurer 113.62, OOP left 3971.594 |
| `CostShare.ExhaustedOopStillPaysDeductible` | FSLOGIC_UPLOAD.py:42-55 | with no OOP balance but 50 of deductible left, the patient still pays 50 of a 100 charge and the insurer 50: deductible payments do not count towards the OOP cap |
| `CostShare.NegativeChargeDropped` | FSLOGIC_UPLOAD.py:42-55 | a negative charge (-10) with the deductible used up gets no patient and no insurer share, and the balances stay as they were |
| `CostShare.NegativeChargeCredited` | FSLOGIC_UPLOAD.py:42-55 | a negative charge (-10) with 50 of deductible left is credited to the patient (-10, insurer 0), and the deductible balance rises to 60 |
| `SetupCharges.Remaining` | FSLOGIC_UPLOAD.py:140-141 | `max(total - met, 0)` is non-negative. It is `total - met` when `met <= total` and zero once `met >= total`. It never exceeds the total when `met >= 0` |
| `SetupCharges.RunSetup` | FSLOGIC_UPLOAD.py:145-149 | the cost-share table has exactly one row per setup row |
| `SetupCharges.RunSetupAppend` | FSLOGIC_UPLOAD.py:145-146 | running two lists of rows back to back is the same as running the second list from the balances the first left behind |
| `SetupCharges.RunSetupSnoc` | FSLOGIC_UPLOAD.py:145-149 | a row added at the end is allocated against the balances left by all the rows before it |
| `SetupCharges.SetupThreadsBalances` | FSLOGIC_UPLOAD.py:145-149 | outcome `i` is `apply_cost_share` of row `i` on exactly the balances left after rows `0..i-1` |
| `SetupCharges.SetupBalancesShrink` | FSLOGIC_UPLOAD.py:140-146 | with non-negative prices, balances and rate in [0, 1], the pass leaves both balances non-negative and no larger than at the start |
| `SetupCharges.SetupConservation` | FSLOGIC_UPLOAD.py:145-149 | the patient and insurer columns together equal the allowed column within one cent per row |
| `SetupCharges.SetupLoop` | FSLOGIC_UPLOAD.py:144-153 | the mutating loop yields the outcomes and final balances of the functional pass, and the first-month accumulators equal the patient and insurer sums over the rows flagged as first month |
| `RentalSchedule.MonthIndex` | FSLOGIC_UPLOAD.py:169 | the computed calendar month always lies in 1..12 |
| `RentalSchedule.MonthIndexStart` | FSLOGIC_UPLOAD.py:164-169 | the formula puts period 1 in the effective month itself, matching the first schedule line |
| `RentalSchedule.MonthIndexAdvances` | FSLOGIC_UPLOAD.py:169 | each period is the calendar month after the previous one, with December followed by January |
| `RentalSchedule.FirstRolloverPeriod` | FSLOGIC_UPLOAD.py:168-170 | the first period after the setup month that falls in the reset month lies in 2..13, falls in the reset month, and no earlier period does |
| `RentalSchedule.SameMonthResetIsAYearOut` | FSLOGIC_UPLOAD.py:168-170 | when the reset month is the effective month, the first reset comes at period 13, beyond a 10-month rental |
| `RentalSchedule.Periods` | FSLOGIC_UPLOAD.py:168-174 | periods `m..last` give `last - m + 1` lines, and line `k` is labelled with the calendar month of period `m + k` |
| `RentalSchedule.Opening` | FSLOGIC_UPLOAD.py:167-173 | the running `year_*` balances: with a valid plan, a non-negative charge and non-negative entering balances, every period opens within the entering balances or within the plan's full amounts, so never above what some benefit year started with |
| `RentalSchedule.OpeningsBeforeRollover` | FSLOGIC_UPLOAD.py:167-173 | until the first reset month, every period opens within the balances the schedule was entered with (those the setup pass left) |
| `RentalSchedule.OpeningStep` | FSLOGIC_UPLOAD.py:167-173 | each period starts from the balances the previous period's allocation left, reset if the period falls in the reset month |
| `RentalSchedule.PeriodsFollowOpenings` | FSLOGIC_UPLOAD.py:168-174 | schedule line `k` is `apply_cost_share` of the monthly charge against the balances its period starts from |
| `RentalSchedule.RolloverRestoresFull` | FSLOGIC_UPLOAD.py:170-172 | in a reset month the balances just before the allocation are the plan's full deductible and OOP maximum, whatever was already met |
| `RentalSchedule.OpeningsNonNegative` | FSLOGIC_UPLOAD.py:167-173 | with a valid plan and a non-negative charge, no period starts from a negative balance |
| `RentalSchedule.NonIncreasingBetweenRollovers` | FSLOGIC_UPLOAD.py:167-173 | unless the next period is a reset month, neither balance goes up from one period to the next |
| `RentalSchedule.OopCapHolds` | FSLOGIC_UPLOAD.py:168-174 | once both balances are used up they stay put until the next reset, and every line up to then has the patient paying 0 and the insurer the rounded charge |
| `RentalSchedule.PeriodLinesConserve` | FSLOGIC_UPLOAD.py:173 | every rental line's two shares add up to the monthly charge within one cent |
| `RentalSchedule.PeriodsConservation` | FSLOGIC_UPLOAD.py:168-174 | over the rental periods, the patient and insurer columns together equal one monthly charge per line within one cent per line |
| `RentalSchedule.Schedule` | FSLOGIC_UPLOAD.py:164-174 | the schedule has `max_months` lines (at least one). The first is the effective month with the rounded first-month sums. Line `k` falls in the calendar month of period `k + 1` |
| `RentalSchedule.ScheduleMonthsConsecutive` | FSLOGIC_UPLOAD.py:164-174 | every schedule month lies in 1..12, and consecutive lines are consecutive calendar months |
| `RentalSchedule.ScheduleLoop` | FSLOGIC_UPLOAD.py:164-174 | the mutating loop, with its in-place reset, builds exactly the functional schedule |
| `Estimator.MonthlyCharge` | FSLOGIC_UPLOAD.py:162 | the monthly charge and the one-time charges together make up the whole fee schedule, each item counted once; with non-negative charges it lies between zero and that whole |
| `Estimator.MaxMonths` | FSLOGIC_UPLOAD.py:163 | the result is the month count of some monthly item, and no monthly item has more |
| `Estimator.DefaultScheduleFigures` | FSLOGIC_UPLOAD.py:28-39 | the default fee schedule bills 95.56 a month for 10 months |
| `Estimator.DefaultRow` | FSLOGIC_UPLOAD.py:59-61 | a setup row keeps the item's code; it is flagged as a rental's first month exactly when the item is monthly, and then its description carries " (1st Month)"; its price is whole cents and equals a whole-cent charge |
| `Estimator.DefaultRows` | FSLOGIC_UPLOAD.py:58-61 | one setup row per fee-schedule item, in order, with the item's code, the first-month flag exactly on rentals, and the whole-cent charge as price |
| `Estimator.DefaultRowsPrice` | FSLOGIC_UPLOAD.py:58-61 | with whole-cent charges, the default setup rows cost the one-time items plus exactly one month of every rental |
| `Estimator.InitialBalances` | FSLOGIC_UPLOAD.py:140-141 | the starting balances are non-negative. They are the unmet remainders when `met <= total`, and no larger than the plan's full amounts for a valid plan |
| `Estimator.EstimateCosts` | FSLOGIC_UPLOAD.py:139-185 | one cost-share row per setup row, `max_months` schedule lines (at least one), and the first line labelled with the effective month |
| `Estimator.TotalsConservation` | FSLOGIC_UPLOAD.py:182-185 | patient total plus insurer total equals the upfront figure within one cent per allocated charge, so nothing is counted twice or dropped |
| `Estimator.SupplyTotalIsOneTimeItems` | FSLOGIC_UPLOAD.py:184 | for the default rows, `supply_total` is exactly the total of the one-time supplies, for any plan |
| `Estimator.UpfrontIsUndiscountedCost` | FSLOGIC_UPLOAD.py:184-185 | for the default rows, `total_upfront` is every one-time item once plus every rental for `max_months` months, independent of the plan |
| `Estimator.ComputeEstimate` | FSLOGIC_UPLOAD.py:139-185 | the imperative computation of the two tables and the totals agrees with `EstimateCosts` |

## Left out

- The Streamlit sidebar, the editable setup table and the code/price
  substitution menus (lines 15-25 and 64-136) are user interface. The plan
  is a `Plan` record and the edited setup rows are an input sequence.
- The effective and reset dates enter only through their month numbers
  (lines 164, 169 and 170). The model takes those months directly.
- The coinsurance percentage is divided by 100 in the sidebar (line 24).
  The model takes the resulting fraction.
- pandas data frames (lines 62, 68, 155 and 175) are replaced by sequences.
- `calendar.month_name` (lines 164 and 174) is not modelled: a schedule line
  carries the month number, not its name.
- PDF generation, logo loading and the download button (lines 194-289) are
  presentation and I/O. This includes showing `total_patient` as the prepay
  amount on line 274.
- Binary floating point is not modelled. Amounts are exact rationals, and
  `round` acts on the exact value. Python rounds the nearest binary double,
  so some ties come out differently: `round(2.675, 2)` gives 2.67.
- `Estimator.MaxMonths`: Python's `max` raises on a schedule with no monthly
  item. The model requires at least one such item instead of modelling the
  exception; the default schedule has two.
- `Estimator.TotalsConservation`: it requires at least one rental month.
  With zero months the schedule still shows the setup month, but the upfront
  figure bills no month, so the two figures differ by one monthly charge.
- `RentalSchedule.OopCapHolds`: the property that an exhausted OOP balance
  makes the insurer pay the whole charge is proved only with the deductible
  met too, because the program never counts deductible payments towards the
  OOP balance (see `CostShare.ExhaustedOopStillPaysDeductible`).
- `SetupCharges.SetupConservation`: it assumes non-negative prices, which
  the program does not guarantee: the price input of line 134 has no
  minimum. With the deductible used up, a negative price is dropped from
  both columns (`CostShare.NegativeChargeDropped`), and the columns no longer
  add up to the allowed amount. With deductible left, it is credited to the
  patient and the deductible balance rises
  (`CostShare.NegativeChargeCredited`). In both cases the insurer's share is
  zero and the OOP balance is untouched (`CostShare.Allocate`). The same premise, and the same reason,
  applies to `Estimator.TotalsConservation`.
- `CostShare.ApplyCostShare`: its conservation holds only to within a cent,
  because the program rounds each share separately. Exact conservation is
  proved for the unrounded `CostShare.Allocate`.
- The unused variable `setupprice` (line 142) is not modelled.

=== FILE: cost_share.dfy ===
/**
  The cost-share allocator (`apply_cost_share`, FSLOGIC_UPLOAD.py lines 42-55).

  One charge is split between patient and insurer in a fixed order: first the
  remaining deductible absorbs what it can, then the patient pays the
  coinsurance rate on what is left, capped by the remaining out-of-pocket
  (OOP) balance, and the insurer pays the rest. Deductible payments are not
  taken off the OOP balance: the two balances are consumed independently.
 */
module CostShare {
  import opened Money

  /** The two running balances threaded from charge to charge. */
  datatype Balances = Balances(dedRem: real, oopRem: real)
  {
    predicate NonNegative() {
      dedRem >= 0.0 && oopRem >= 0.0
    }

    /** Neither balance exceeds the corresponding balance of `other`. */
    predicate Within(other: Balances) {
      dedRem <= other.dedRem && oopRem <= other.oopRem
    }
  }

  /** The outcome of allocating one charge: the two shares and the balances left. */
  datatype Share = Share(patient: real, insurer: real, after: Balances)

  /** The part of a charge absorbed in the deductible phase (lines 44-46). */
  function DeductiblePart(amount: real, dedRem: real): (d: real)
    // a positive deductible takes the whole charge or all that is left of it, whichever is less
    ensures dedRem > 0.0 ==> d <= amount && d <= dedRem && (d == amount || d == dedRem)
    // a non-negative charge never drives the deductible below zero
    ensures amount >= 0.0 && dedRem >= 0.0 ==> 0.0 <= d <= dedRem
    // a used-up deductible absorbs nothing
    ensures dedRem <= 0.0 ==> d == 0.0
  {
    if dedRem > 0.0 then Min(amount, dedRem) else 0.0
  }

  /**
    The coinsurance share of a post-deductible remainder (lines 48-50): the
    rate applied to the remainder, capped by the remaining OOP balance.
   */
  function Coinsurance(rest: real, rate: real, oopRem: real): (c: real)
    ensures c <= oopRem && c <= rest * rate && (c == rest * rate || c == oopRem)
    ensures rest >= 0.0 && 0.0 <= rate <= 1.0 && oopRem >= 0.0 ==> 0.0 <= c <= rest
  {
    FractionWithin(rest, rate);
    Min(rest * rate, oopRem)
  }

  /**
    The allocator on exact amounts, before the two shares are rounded.
    Here `amount - DeductiblePart(...)` is the post-deductible remainder and
    `b.oopRem - s.after.oopRem` is the coinsurance share.
   */
  function Allocate(amount: real, b: Balances, rate: real): (s: Share)
    // conservation: the charge is split, nothing is lost or invented
    ensures amount >= 0.0 ==> s.patient + s.insurer == amount
    // every dollar the patient pays is taken off one of the two balances
    ensures s.patient == (b.dedRem - s.after.dedRem) + (b.oopRem - s.after.oopRem)
    // deductible first: the deductible always absorbs its part of the charge
    ensures s.after.dedRem == b.dedRem - DeductiblePart(amount, b.dedRem)
    // a charge the deductible covers is the patient's alone
    ensures 0.0 <= amount <= b.dedRem ==>
              s == Share(amount, 0.0, Balances(b.dedRem - amount, b.oopRem))
    // the coinsurance share is the smaller of the rate on the remainder and the OOP balance,
    // and it never takes a positive OOP balance below zero
    ensures var coins := b.oopRem - s.after.oopRem;
            var rest := amount - DeductiblePart(amount, b.dedRem);
            b.oopRem > 0.0 && amount >= 0.0 ==>
              && coins <= b.oopRem && coins <= rest * rate
              && (coins == rest * rate || (coins == b.oopRem && s.after.oopRem == 0.0))
    // an exhausted OOP balance: the insurer pays the whole post-deductible remainder
    ensures b.oopRem <= 0.0 ==>
              && s.after.oopRem == b.oopRem
              && s.patient == DeductiblePart(amount, b.dedRem)
              && (amount >= 0.0 ==> s.insurer == amount - DeductiblePart(amount, b.dedRem))
    // a zero charge changes nothing
    ensures amount == 0.0 ==> s == Share(0.0, 0.0, b)
    // a negative charge is never passed to the insurer and never touches the OOP balance
    ensures amount <= 0.0 ==> s.insurer == 0.0 && s.after.oopRem == b.oopRem
    // with valid inputs shares are non-negative and balances only go down, never below zero
    ensures amount >= 0.0 && b.NonNegative() && 0.0 <= rate <= 1.0 ==>
              && s.patient >= 0.0 && s.insurer >= 0.0
              && s.after.NonNegative() && s.after.Within(b)
  {
    var d := DeductiblePart(amount, b.dedRem);
    var rest := amount - d;
    var dedAfter := b.dedRem - d;
    if rest > 0.0 then
      if b.oopRem > 0.0 then
        var coins := Coinsurance(rest, rate, b.oopRem);
        Share(d + coins, rest - coins, Balances(dedAfter, b.oopRem - coins))
      else
        Share(d, rest, Balances(dedAfter, b.oopRem))
    else
      Share(d, 0.0, Balances(dedAfter, b.oopRem))
  }

  /**
    `apply_cost_share` as written: the two shares are rounded to the cent,
    the returned balances are not (line 55).
   */
  function ApplyCostShare(amount: real, b: Balances, rate: real): (s: Share)
    ensures s.after == Allocate(amount, b, rate).after
    ensures IsCents(s.patient) && IsCents(s.insurer)
    ensures Abs(s.patient - Allocate(amount, b, rate).patient) <= 0.005
    ensures Abs(s.insurer - Allocate(amount, b, rate).insurer) <= 0.005
    // conservation up to one cent of rounding
    ensures amount >= 0.0 ==> Abs(s.patient + s.insurer - amount) <= 0.01
    ensures 0.0 <= amount <= b.dedRem ==>
              s == Share(Round2(amount), 0.0, Balances(b.dedRem - amount, b.oopRem))
    ensures amount == 0.0 ==> s == Share(0.0, 0.0, b)
    // both balances used up: the insurer pays the (rounded) charge, the patient nothing
    ensures amount >= 0.0 && b.dedRem <= 0.0 && b.oopRem <= 0.0 ==>
              s == Share(0.0, Round2(amount), b)
    ensures amount >= 0.0 && b.NonNegative() && 0.0 <= rate <= 1.0 ==>
              s.patient >= 0.0 && s.insurer >= 0.0
  {
    var e := Allocate(amount, b, rate);
    Share(Round2(e.patient), Round2(e.insurer), e.after)
  }

  /**
    The full face mask (142.03) under a met deductible, a 4000 OOP balance
    and 20% coinsurance: the patient pays 28.41, the insurer 113.62, and the
    OOP balance keeps its unrounded remainder.
   */
  lemma MaskExample()
    ensures ApplyCostShare(142.03, Balances(0.0, 4000.0), 0.2) == Share(28.41, 113.62, Balances(0.0, 3971.594))
  {
    assert Allocate(142.03, Balances(0.0, 4000.0), 0.2) == Share(28.406, 113.624, Balances(0.0, 3971.594));
  }

  /**
    An exhausted OOP balance does not shield the patient from the deductible:
    deductible payments are never taken off the OOP balance, so with 50 of
    deductible left and no OOP balance the patient still pays 50 of a 100
    charge.
   */
  lemma ExhaustedOopStillPaysDeductible()
    ensures ApplyCostShare(100.0, Balances(50.0, 0.0), 0.2) == Share(50.0, 50.0, Balances(0.0, 0.0))
  {
  }

  /**
    A negative charge with the deductible used up is dropped: neither share
    takes it, so the two columns no longer add up to the allowed amount.
   */
  lemma NegativeChargeDropped()
    ensures ApplyCostShare(-10.0, Balances(0.0, 100.0), 0.2) == Share(0.0, 0.0, Balances(0.0, 100.0))
  {
  }

  /**
    A negative charge with deductible left is credited to the patient: the
    patient's share goes negative and the deductible balance rises.
   */
  lemma NegativeChargeCredited()
    ensures ApplyCostShare(-10.0, Balances(50.0, 100.0), 0.2) == Share(-10.0, 0.0, Balances(60.0, 100.0))
  {
  }
}

=== FILE: estimator.dfy ===
/**
  The whole estimate (FSLOGIC_UPLOAD.py lines 27-39, 58-61 and 139-185): the
  default fee schedule, the setup rows built from it, the setup pass, the
  monthly schedule and the totals.

  Two quirks of the program are kept as written: the combined monthly charge
  and the number of months come from the default fee schedule, not from the
  prices the operator edited, and the "upfront" figure is the undiscounted
  cost of everything, independent of the plan.
 */
module Estimator {
  import opened Money
  import opened CostShare
  import opened SetupCharges
  import opened RentalSchedule

  /** A fee-schedule entry is billed once, or monthly for a number of months. */
  datatype FeeKind = OneTime | Monthly(months: nat)

  datatype FeeItem = FeeItem(code: string, charge: real, kind: FeeKind, desc: string)

  /** The default fee schedule (lines 28-39). */
  const DefaultFees: seq<FeeItem> := [
    FeeItem("A7030", 142.03, OneTime, "Full Face Mask"),
    FeeItem("A7031", 53.03, OneTime, "Full Face Cushion"),
    FeeItem("A7035", 27.22, OneTime, "HEADGEAR"),
    FeeItem("A7036", 7.80, OneTime, "CHINSTRAP"),
    FeeItem("A4604", 31.87, OneTime, "HEATED TUBING"),
    FeeItem("A0738", 7.38, OneTime, "CPAP FILTER (2 Included)"),
    FeeItem("E0601", 73.18, Monthly(10), "CPAP Device Rental"),
    FeeItem("E0562", 22.38, Monthly(10), "Humidifier Rental")
  ]

  function ChargeOf(f: FeeItem): real { f.charge }
  function MonthlyChargeOf(f: FeeItem): real { if f.kind.Monthly? then f.charge else 0.0 }
  function OneTimeChargeOf(f: FeeItem): real { if f.kind.OneTime? then f.charge else 0.0 }

  predicate ChargesNonNegative(fees: seq<FeeItem>) {
    forall i :: 0 <= i < |fees| ==> fees[i].charge >= 0.0
  }

  /** The combined charge of one rental month (line 162). */
  function MonthlyCharge(fees: seq<FeeItem>): (c: real)
    // every item is billed either once or monthly: the schedule's total is split between the two
    ensures c + Sum(fees, OneTimeChargeOf) == Sum(fees, ChargeOf)
    ensures ChargesNonNegative(fees) ==> 0.0 <= c <= Sum(fees, ChargeOf)
  {
    FeeChargesSplit(fees);
    Sum(fees, MonthlyChargeOf)
  }

  lemma {:induction false} FeeChargesSplit(fees: seq<FeeItem>)
    ensures Sum(fees, MonthlyChargeOf) + Sum(fees, OneTimeChargeOf) == Sum(fees, ChargeOf)
    ensures ChargesNonNegative(fees) ==> Sum(fees, MonthlyChargeOf) >= 0.0 && Sum(fees, OneTimeChargeOf) >= 0.0
    decreases |fees|
  {
    if |fees| > 0 {
      FeeChargesSplit(fees[1..]);
      if ChargesNonNegative(fees) {
        assert fees[0].charge >= 0.0;
        assert ChargesNonNegative(fees[1..]) by {
          forall i | 0 <= i < |fees[1..]| ensures fees[1..][i].charge >= 0.0 {
            assert fees[1..][i] == fees[i + 1];
          }
        }
      }
    }
  }

  predicate HasMonthly(fees: seq<FeeItem>) {
    exists i :: 0 <= i < |fees| && fees[i].kind.Monthly?
  }

  /**
    The longest rental (line 163). Python's `max` of no values raises, so the
    schedule must hold at least one monthly item.
   */
  function MaxMonths(fees: seq<FeeItem>): (n: nat)
    requires HasMonthly(fees)
    ensures exists i :: 0 <= i < |fees| && fees[i].kind.Monthly? && fees[i].kind.months == n
    ensures forall i :: 0 <= i < |fees| && fees[i].kind.Monthly? ==> fees[i].kind.months <= n
    decreases |fees|
  {
    var f := fees[0];
    var rest := fees[1..];
    if !f.kind.Monthly? then
      assert forall i :: 0 < i < |fees| ==> fees[i] == rest[i - 1];
      MaxMonths(rest)
    else if !HasMonthly(rest) then
      assert forall i :: 0 < i < |fees| ==> fees[i] == rest[i - 1];
      f.kind.months
    else
      var m := MaxMonths(rest);
      assert forall i :: 0 < i < |fees| ==> fees[i] == rest[i - 1];
      if f.kind.months >= m then f.kind.months else m
  }

  /** The default schedule bills 95.56 a month for ten months. */
  lemma DefaultScheduleFigures()
    ensures HasMonthly(DefaultFees) && MaxMonths(DefaultFees) == 10
    ensures MonthlyCharge(DefaultFees) == 95.56
  {
  }

  /** The setup row the program builds for a fee-schedule entry (lines 59-61). */
  function DefaultRow(f: FeeItem): (r: SetupRow)
    ensures r.code == f.code
    // the row is marked as a rental's first month exactly when the item is a rental
    ensures r.firstMonth <==> f.kind.Monthly?
    ensures r.firstMonth ==> r.description == f.desc + " (1st Month)"
    ensures !r.firstMonth ==> r.description == f.desc
    // the price is the charge in whole cents, unchanged when it already is
    ensures IsCents(r.price) && (IsCents(f.charge) ==> r.price == f.charge)
  {
    if f.kind.OneTime? then SetupRow(f.code, f.desc, Round2(f.charge), false)
    else SetupRow(f.code, f.desc + " (1st Month)", Round2(f.charge), true)
  }

  function DefaultRows(fees: seq<FeeItem>): (rows: seq<SetupRow>)
    ensures |rows| == |fees|
    ensures forall i :: 0 <= i < |rows| ==>
              && rows[i].code == fees[i].code
              && (rows[i].firstMonth <==> fees[i].kind.Monthly?)
              && (IsCents(fees[i].charge) ==> rows[i].price == fees[i].charge)
  {
    seq(|fees|, i requires 0 <= i < |fees| => DefaultRow(fees[i]))
  }

  predicate ChargesInCents(fees: seq<FeeItem>) {
    forall i :: 0 <= i < |fees| ==> IsCents(fees[i].charge)
  }

  /**
    With whole-cent charges, the default setup rows cost the one-time items
    plus exactly one month of every rental.
   */
  lemma {:induction false} DefaultRowsPrice(fees: seq<FeeItem>)
    requires ChargesInCents(fees)
    ensures Sum(DefaultRows(fees), PriceOf) == Sum(fees, OneTimeChargeOf) + MonthlyCharge(fees)
    decreases |fees|
  {
    if |fees| > 0 {
      var rows := DefaultRows(fees);
      assert rows[1..] == DefaultRows(fees[1..]);
      assert IsCents(fees[0].charge);
      DefaultRowsPrice(fees[1..]);
    }
  }

  /** The balances the setup pass starts from (lines 140-141). */
  function InitialBalances(plan: Plan): (b: Balances)
    ensures b.NonNegative()
    ensures plan.Valid() ==> b.Within(plan.Full())
    ensures plan.deductibleMet <= plan.deductibleTotal ==> b.dedRem == plan.deductibleTotal - plan.deductibleMet
    ensures plan.oopMet <= plan.oopMax ==> b.oopRem == plan.oopMax - plan.oopMet
  {
    Balances(Remaining(plan.deductibleTotal, plan.deductibleMet), Remaining(plan.oopMax, plan.oopMet))
  }

  /** Everything the program shows: both tables and the totals of lines 182-185. */
  datatype Estimate = Estimate(
    outcomes: seq<ChargeOutcome>,
    schedule: seq<MonthEntry>,
    totalPatient: real,
    totalInsurer: real,
    supplyTotal: real,
    totalUpfront: real)

  /**
    The estimate for a plan, the default fee schedule `fees` and the setup
    rows `rows` as the operator edited them.
   */
  function EstimateCosts(plan: Plan, fees: seq<FeeItem>, rows: seq<SetupRow>): (e: Estimate)
    requires HasMonthly(fees)
    ensures |e.outcomes| == |rows|
    ensures |e.schedule| == if MaxMonths(fees) >= 2 then MaxMonths(fees) else 1
    ensures e.schedule[0].month == plan.effMonth
  {
    var pass := RunSetup(rows, InitialBalances(plan), plan.rate);
    var charge := MonthlyCharge(fees);
    var months := MaxMonths(fees);
    var schedule := Schedule(plan, charge, months,
                             Sum(pass.outcomes, FirstMonthPatientOf),
                             Sum(pass.outcomes, FirstMonthInsurerOf),
                             pass.balances);
    var supply := Sum(rows, PriceOf) - charge;
    Estimate(
      pass.outcomes,
      schedule,
      Sum(pass.outcomes, PatientOf) + Sum(schedule[1..], EntryPatientOf),
      Sum(pass.outcomes, InsurerOf) + Sum(schedule[1..], EntryInsurerOf),
      supply,
      supply + Times(months, charge))
  }

  /**
    Conservation of the totals: what the patient and the insurer pay
    together is the upfront figure, the undiscounted cost of the setup rows
    and of every later rental month, within a cent per allocated charge. In
    particular the first schedule line, which repeats the setup month's
    rentals, is not counted twice.
   */
  lemma TotalsConservation(plan: Plan, fees: seq<FeeItem>, rows: seq<SetupRow>)
    requires HasMonthly(fees) && MaxMonths(fees) >= 1
    requires PricesNonNegative(rows) && MonthlyCharge(fees) >= 0.0
    ensures var e := EstimateCosts(plan, fees, rows);
            var slack := 0.01 * (|rows| + MaxMonths(fees) - 1) as real;
            -slack <= e.totalPatient + e.totalInsurer - e.totalUpfront <= slack
  {
    var e := EstimateCosts(plan, fees, rows);
    var pass := RunSetup(rows, InitialBalances(plan), plan.rate);
    var charge := MonthlyCharge(fees);
    var months := MaxMonths(fees);
    var later := Periods(plan, charge, 2, months, pass.balances);
    TotalsSplit(plan, fees, rows);
    SetupConservation(rows, InitialBalances(plan), plan.rate);
    PeriodsConservation(plan, charge, 2, months, pass.balances);
    assert |later| == months - 1;
    assert e.totalUpfront == Sum(rows, PriceOf) + Times(|later|, charge);
  }

  /** The totals are the setup columns plus the rental periods after the setup month. */
  lemma TotalsSplit(plan: Plan, fees: seq<FeeItem>, rows: seq<SetupRow>)
    requires HasMonthly(fees)
    ensures var e := EstimateCosts(plan, fees, rows);
            var pass := RunSetup(rows, InitialBalances(plan), plan.rate);
            var later := Periods(plan, MonthlyCharge(fees), 2, MaxMonths(fees), pass.balances);
            && |e.schedule| - 1 == |later|
            && e.totalPatient == Sum(pass.outcomes, PatientOf) + Sum(later, EntryPatientOf)
            && e.totalInsurer == Sum(pass.outcomes, InsurerOf) + Sum(later, EntryInsurerOf)
  {
    var e := EstimateCosts(plan, fees, rows);
    var pass := RunSetup(rows, InitialBalances(plan), plan.rate);
    var later := Periods(plan, MonthlyCharge(fees), 2, MaxMonths(fees), pass.balances);
    assert e.schedule[1..] == later;
  }

  /**
    The upfront figure is the undiscounted cost of the default supplies:
    every one-time item once and every rental for the full number of months,
    whatever the plan.
   */
  lemma UpfrontIsUndiscountedCost(plan: Plan, fees: seq<FeeItem>)
    requires HasMonthly(fees) && ChargesInCents(fees)
    ensures EstimateCosts(plan, fees, DefaultRows(fees)).totalUpfront
         == Sum(fees, OneTimeChargeOf) + Times(MaxMonths(fees), MonthlyCharge(fees))
  {
    DefaultRowsPrice(fees);
  }

  /**
    For the default rows, `supply_total` is what its comment says: the total
    of the one-time supplies. Once the operator edits a rental's price it is
    no longer, since the default monthly charge is what gets subtracted.
   */
  lemma SupplyTotalIsOneTimeItems(plan: Plan, fees: seq<FeeItem>)
    requires HasMonthly(fees) && ChargesInCents(fees)
    ensures EstimateCosts(plan, fees, DefaultRows(fees)).supplyTotal == Sum(fees, OneTimeChargeOf)
  {
    DefaultRowsPrice(fees);
  }

  /**
    The imperative computation of lines 139-185, mutating the balances as
    the program does, agrees with `EstimateCosts`.
   */
  method ComputeEstimate(plan: Plan, fees: seq<FeeItem>, rows: seq<SetupRow>) returns (e: Estimate)
    requires HasMonthly(fees)
    ensures e == EstimateCosts(plan, fees, rows)
  {
    var outcomes, bal, firstPatient, firstInsurer := SetupLoop(rows, InitialBalances(plan), plan.rate);
    var charge := MonthlyCharge(fees);
    var months := MaxMonths(fees);
    var schedule := ScheduleLoop(plan, charge, months, firstPatient, firstInsurer, bal);

    // the totals (lines 182-185)
    var supply := Sum(rows, PriceOf) - charge;
    e := Estimate(
      outcomes,
      schedule,
      Sum(outcomes, PatientOf) + Sum(schedule[1..], EntryPatientOf),
      Sum(outcomes, InsurerOf) + Sum(schedule[1..], EntryInsurerOf),
      supply,
      supply + Times(months, charge));
  }
}

=== FILE: money.dfy ===
/**
  Money arithmetic for the cost-share engine.

  Amounts are exact rationals (`real`). The one place where the
  program leaves exact arithmetic is `round(x, 2)`, which is modelled here as
  rounding to the nearest cent with ties going to the even cent (the rule of
  Python's `round`), applied to the exact value.
 */
module Money {

  function Min(a: real, b: real): real {
    if a <= b then a else b
  }

  function Max(a: real, b: real): real {
    if a >= b then a else b
  }

  function Abs(x: real): real {
    if x >= 0.0 then x else -x
  }

  /** Distance between the integer `k` and the real `y`. */
  function Dist(k: int, y: real): real {
    Abs(k as real - y)
  }

  /** True iff `x` is a whole number of cents. */
  predicate IsCents(x: real) {
    (100.0 * x).Floor as real == 100.0 * x
  }

  /** The integer nearest to `y`, ties going to the even one. */
  function RoundHalfEven(y: real): (c: int)
    ensures Dist(c, y) <= 0.5
    ensures forall k: int :: Dist(c, y) <= Dist(k, y)
    ensures Dist(c, y) == 0.5 ==> c % 2 == 0
    ensures y.Floor as real == y ==> c as real == y
  {
    var n := y.Floor;
    var c := if y - n as real < 0.5 then n
             else if y - n as real > 0.5 then n + 1
             else if n % 2 == 0 then n
             else n + 1;
    NearestWithinHalf(c, y);
    c
  }

  /** An integer within half a unit of `y` is at least as close as any other. */
  lemma NearestWithinHalf(c: int, y: real)
    requires Dist(c, y) <= 0.5
    ensures forall k: int :: Dist(c, y) <= Dist(k, y)
  {
    forall k: int
      ensures Dist(c, y) <= Dist(k, y)
    {
      if k < c {
        assert k as real <= c as real - 1.0;
      } else if k > c {
        assert k as real >= c as real + 1.0;
      }
    }
  }

  /** `round(x, 2)`: the nearest whole-cent amount to `x`. */
  function Round2(x: real): (r: real)
    ensures IsCents(r)
    ensures Abs(r - x) <= 0.005
    ensures x >= 0.0 ==> r >= 0.0
    ensures IsCents(x) ==> r == x
  {
    var c := RoundHalfEven(100.0 * x);
    assert 100.0 * (c as real / 100.0) == c as real;
    c as real / 100.0
  }

  /** A fraction of a non-negative amount lies between zero and the amount. */
  lemma FractionWithin(x: real, rate: real)
    ensures x >= 0.0 && 0.0 <= rate <= 1.0 ==> 0.0 <= x * rate <= x
  {
    if x >= 0.0 && 0.0 <= rate <= 1.0 {
      assert x * rate <= x * 1.0;
    }
  }

  /** Sum of `f` over the elements of `s`, in order. */
  function Sum<T>(s: seq<T>, f: T -> real): real
    decreases |s|
  {
    if |s| == 0 then 0.0 else f(s[0]) + Sum(s[1..], f)
  }

  lemma {:induction false} SumAppend<T>(a: seq<T>, b: seq<T>, f: T -> real)
    ensures Sum(a + b, f) == Sum(a, f) + Sum(b, f)
    decreases |a|
  {
    if |a| == 0 {
      assert a + b == b;
    } else {
      assert (a + b)[1..] == a[1..] + b;
      SumAppend(a[1..], b, f);
    }
  }

  /** `n` copies of `x` added together. */
  function Times(n: nat, x: real): real {
    if n == 0 then 0.0 else x + Times(n - 1, x)
  }

  /**
    If `f` and `g` add up to within a cent of `c` on every element, their sums
    add up to within a cent per element of `|s|` copies of `c`.
   */
  lemma {:induction false} SumPairWithinCents<T>(s: seq<T>, f: T -> real, g: T -> real, c: real)
    requires forall i :: 0 <= i < |s| ==> -0.01 <= f(s[i]) + g(s[i]) - c <= 0.01
    ensures -0.01 * |s| as real <= Sum(s, f) + Sum(s, g) - Times(|s|, c) <= 0.01 * |s| as real
    decreases |s|
  {
    if |s| > 0 {
      assert -0.01 <= f(s[0]) + g(s[0]) - c <= 0.01;
      SumPairWithinCents(s[1..], f, g, c);
    }
  }
}

=== FILE: rental_schedule.dfy ===
/**
  The monthly rental schedule (FSLOGIC_UPLOAD.py lines 161-174).

  Period 1 is the setup month, already allocated by the setup pass. For every
  later period `m` the combined monthly charge is allocated once, against the
  balances left by the period before, except that in the plan's reset month
  both balances first return to the plan's full deductible and OOP maximum
  (a benefit-year rollover).
 */
module RentalSchedule {
  import opened Money
  import opened CostShare

  /**
    The plan parameters of the sidebar (lines 19-25): `rate` is the
    coinsurance fraction, the two months are calendar months 1..12 taken
    from the effective date and the reset date.
   */
  datatype Plan = Plan(
    deductibleTotal: real,
    deductibleMet: real,
    oopMax: real,
    oopMet: real,
    rate: real,
    effMonth: int,
    resetMonth: int)
  {
    /** The bounds the input widgets impose on the plan. */
    predicate Valid() {
      && deductibleTotal >= 0.0 && deductibleMet >= 0.0
      && oopMax >= 0.0 && oopMet >= 0.0
      && 0.0 <= rate <= 1.0
      && 1 <= effMonth <= 12 && 1 <= resetMonth <= 12
    }

    /** Both balances at the start of a fresh benefit year. */
    function Full(): Balances {
      Balances(deductibleTotal, oopMax)
    }
  }

  /** One line of the schedule: the calendar month and the two (rounded) shares. */
  datatype MonthEntry = MonthEntry(month: int, patient: real, insurer: real)

  function EntryPatientOf(e: MonthEntry): real { e.patient }
  function EntryInsurerOf(e: MonthEntry): real { e.insurer }

  /** The calendar month of period `m` when period 1 falls in `effMonth` (line 169). */
  function MonthIndex(effMonth: int, m: int): (idx: int)
    ensures 1 <= idx <= 12
  {
    (effMonth + m - 2) % 12 + 1
  }

  /** Euclidean division by 12 is determined by any quotient/remainder pair. */
  lemma DivModTwelve(x: int, q: int, r: int)
    requires 0 <= r < 12 && x == 12 * q + r
    ensures x / 12 == q && x % 12 == r
  {
    var q', r' := x / 12, x % 12;
    assert x == 12 * q' + r' && 0 <= r' < 12;
    assert 12 * (q - q') == r' - r;
  }

  /** The calendar month after `month`, December wrapping round to January. */
  function NextMonth(month: int): int {
    if month == 12 then 1 else month + 1
  }

  /** Adding one to `x` advances `x % 12` by one, wrapping 11 round to 0. */
  lemma ModTwelveStep(x: int, y: int)
    requires y == x + 1
    ensures y % 12 == if x % 12 == 11 then 0 else x % 12 + 1
  {
    var q, r := x / 12, x % 12;
    if r == 11 {
      DivModTwelve(y, q + 1, 0);
    } else {
      DivModTwelve(y, q, r + 1);
    }
  }

  /** Period 1 falls in the effective month itself. */
  lemma MonthIndexStart(effMonth: int)
    requires 1 <= effMonth <= 12
    ensures MonthIndex(effMonth, 1) == effMonth
  {
    DivModTwelve(effMonth + 1 - 2, 0, effMonth - 1);
  }

  /** Each period advances the calendar by one month. */
  lemma MonthIndexAdvances(effMonth: int, m: int)
    ensures MonthIndex(effMonth, m + 1) == NextMonth(MonthIndex(effMonth, m))
  {
    ModTwelveStep(effMonth + m - 2, effMonth + (m + 1) - 2);
  }

  /** True iff period `p` falls in the plan's reset month (line 170). */
  predicate IsRollover(plan: Plan, p: int) {
    MonthIndex(plan.effMonth, p) == plan.resetMonth
  }

  /** The balances a period starts from: the full plan amounts in the reset month, else `b` (lines 170-172). */
  function RolloverAt(plan: Plan, p: int, b: Balances): (r: Balances)
    // a reset restores the plan's totals, whatever had already been met before
    ensures IsRollover(plan, p) ==> r == Balances(plan.deductibleTotal, plan.oopMax)
    // any other month carries the balances over untouched
    ensures !IsRollover(plan, p) ==> r == b
  {
    if IsRollover(plan, p) then plan.Full() else b
  }

  /**
    The first period after the setup month that falls in the reset month:
    with `effMonth == resetMonth` it is period 13, one year on.
   */
  function FirstRolloverPeriod(effMonth: int, resetMonth: int): (p: int)
    requires 1 <= resetMonth <= 12
    ensures 2 <= p <= 13
    ensures MonthIndex(effMonth, p) == resetMonth
    ensures forall q :: 2 <= q < p ==> MonthIndex(effMonth, q) != resetMonth
  {
    var p := (resetMonth - effMonth - 1) % 12 + 2;
    FirstRolloverPeriodCorrect(effMonth, resetMonth, p);
    p
  }

  lemma FirstRolloverPeriodCorrect(effMonth: int, resetMonth: int, p: int)
    requires 1 <= resetMonth <= 12
    requires p == (resetMonth - effMonth - 1) % 12 + 2
    ensures MonthIndex(effMonth, p) == resetMonth
    ensures forall q :: 2 <= q < p ==> MonthIndex(effMonth, q) != resetMonth
  {
    var j, t := (resetMonth - effMonth - 1) / 12, (resetMonth - effMonth - 1) % 12;
    DivModTwelve(resetMonth - effMonth - 1, j, t);
    DivModTwelve(effMonth + p - 2, -j, resetMonth - 1);
    forall q | 2 <= q < p
      ensures MonthIndex(effMonth, q) != resetMonth
    {
      // period q lies p - q months (between 1 and 11) before the reset month
      var back := p - q;
      if resetMonth - 1 - back >= 0 {
        DivModTwelve(effMonth + q - 2, -j, resetMonth - 1 - back);
      } else {
        DivModTwelve(effMonth + q - 2, -j - 1, resetMonth - 1 - back + 12);
      }
    }
  }

  /** A plan whose reset month is its effective month rolls over one year after the setup month. */
  lemma SameMonthResetIsAYearOut(month: int)
    requires 1 <= month <= 12
    ensures FirstRolloverPeriod(month, month) == 13
  {
  }

  /**
    The loop of lines 168-174 for periods `m..last`, entering period `m` with
    balances `b`: each period starts from `RolloverAt`, the combined charge
    is allocated once and its remaining balances are carried forward.
   */
  function Periods(plan: Plan, charge: real, m: int, last: int, b: Balances): (r: seq<MonthEntry>)
    ensures |r| == if m <= last then last - m + 1 else 0
    ensures forall k :: 0 <= k < |r| ==> r[k].month == MonthIndex(plan.effMonth, m + k)
    decreases last - m
  {
    if m > last then []
    else
      var s := ApplyCostShare(charge, RolloverAt(plan, m, b), plan.rate);
      [MonthEntry(MonthIndex(plan.effMonth, m), s.patient, s.insurer)]
        + Periods(plan, charge, m + 1, last, s.after)
  }

  /** One step of the schedule: period `m`, then the later periods from the balances it left. */
  lemma UnfoldPeriods(plan: Plan, charge: real, m: int, last: int, b: Balances)
    requires m <= last
    ensures var s := ApplyCostShare(charge, RolloverAt(plan, m, b), plan.rate);
            Periods(plan, charge, m, last, b)
              == [MonthEntry(MonthIndex(plan.effMonth, m), s.patient, s.insurer)] + Periods(plan, charge, m + 1, last, s.after)
  {
  }

  /**
    The balances period `m + k` starts from (after any rollover), when period
    `m` is entered with `b` and every period allocates `charge`.
   */
  function Opening(plan: Plan, charge: real, m: int, b: Balances, k: nat): (r: Balances)
    // no period opens with more than the year started with: the entering
    // balances before the first reset, the plan's full amounts after it
    ensures plan.Valid() && charge >= 0.0 && b.NonNegative() ==> r.Within(b) || r.Within(plan.Full())
    decreases k
  {
    var start := RolloverAt(plan, m, b);
    if k == 0 then start
    else Opening(plan, charge, m + 1, Allocate(charge, start, plan.rate).after, k - 1)
  }

  /** One step of `Opening`: a period starts from what the previous period left, rolled over if due. */
  lemma {:induction false} OpeningStep(plan: Plan, charge: real, m: int, b: Balances, k: nat)
    ensures Opening(plan, charge, m, b, k + 1)
         == RolloverAt(plan, m + k + 1, Allocate(charge, Opening(plan, charge, m, b, k), plan.rate).after)
    decreases k
  {
    if k > 0 {
      var next := Allocate(charge, RolloverAt(plan, m, b), plan.rate).after;
      OpeningStep(plan, charge, m + 1, next, k - 1);
    }
  }

  /** Entry `k` of the schedule is the allocation of `charge` against the opening balances of its period. */
  lemma {:induction false} PeriodsFollowOpenings(plan: Plan, charge: real, m: int, last: int, b: Balances, k: nat)
    requires k < |Periods(plan, charge, m, last, b)|
    ensures var s := ApplyCostShare(charge, Opening(plan, charge, m, b, k), plan.rate);
            Periods(plan, charge, m, last, b)[k] == MonthEntry(MonthIndex(plan.effMonth, m + k), s.patient, s.insurer)
    decreases k
  {
    if k > 0 {
      var next := ApplyCostShare(charge, RolloverAt(plan, m, b), plan.rate).after;
      PeriodsFollowOpenings(plan, charge, m + 1, last, next, k - 1);
    }
  }

  /** In the reset month both balances are back at the plan's full amounts before the charge is allocated. */
  lemma {:induction false} RolloverRestoresFull(plan: Plan, charge: real, m: int, b: Balances, k: nat)
    requires IsRollover(plan, m + k)
    ensures Opening(plan, charge, m, b, k) == plan.Full()
  {
    if k > 0 {
      OpeningStep(plan, charge, m, b, k - 1);
    }
  }

  /** With a valid plan and a non-negative charge, no period ever starts from a negative balance. */
  lemma {:induction false} OpeningsNonNegative(plan: Plan, charge: real, m: int, b: Balances, k: nat)
    requires plan.Valid() && charge >= 0.0 && b.NonNegative()
    ensures Opening(plan, charge, m, b, k).NonNegative()
    decreases k
  {
    if k > 0 {
      var next := Allocate(charge, RolloverAt(plan, m, b), plan.rate).after;
      OpeningsNonNegative(plan, charge, m + 1, next, k - 1);
    }
  }

  /**
    Before the first reset every period opens within the balances the
    schedule was entered with.
   */
  lemma {:induction false} OpeningsBeforeRollover(plan: Plan, charge: real, m: int, b: Balances, k: nat)
    requires plan.Valid() && charge >= 0.0 && b.NonNegative()
    requires forall p :: m <= p <= m + k ==> !IsRollover(plan, p)
    ensures Opening(plan, charge, m, b, k).Within(b)
    decreases k
  {
    if k > 0 {
      var next := Allocate(charge, RolloverAt(plan, m, b), plan.rate).after;
      assert !IsRollover(plan, m);
      OpeningsBeforeRollover(plan, charge, m + 1, next, k - 1);
    }
  }

  /** Between rollovers neither balance ever goes up. */
  lemma NonIncreasingBetweenRollovers(plan: Plan, charge: real, m: int, b: Balances, k: nat)
    requires plan.Valid() && charge >= 0.0 && b.NonNegative()
    requires !IsRollover(plan, m + k + 1)
    ensures Opening(plan, charge, m, b, k + 1).Within(Opening(plan, charge, m, b, k))
  {
    OpeningStep(plan, charge, m, b, k);
    OpeningsNonNegative(plan, charge, m, b, k);
  }

  /**
    The OOP cap: once both balances are used up, every later period up to the
    next rollover leaves them as they are, and its schedule line has the
    insurer paying the whole (rounded) charge and the patient nothing.
   */
  lemma {:induction false} OopCapHolds(plan: Plan, charge: real, m: int, last: int, b: Balances, k: nat, j: nat)
    requires charge >= 0.0 && k <= j
    requires Opening(plan, charge, m, b, k).dedRem <= 0.0
    requires Opening(plan, charge, m, b, k).oopRem <= 0.0
    requires forall p :: m + k < p <= m + j ==> !IsRollover(plan, p)
    ensures Opening(plan, charge, m, b, j) == Opening(plan, charge, m, b, k)
    ensures j < |Periods(plan, charge, m, last, b)| ==>
              Periods(plan, charge, m, last, b)[j] == MonthEntry(MonthIndex(plan.effMonth, m + j), 0.0, Round2(charge))
    decreases j - k
  {
    if j > k {
      OopCapHolds(plan, charge, m, last, b, k, j - 1);
      OpeningStep(plan, charge, m, b, j - 1);
      assert !IsRollover(plan, m + j);
    }
    if j < |Periods(plan, charge, m, last, b)| {
      PeriodsFollowOpenings(plan, charge, m, last, b, j);
    }
  }

  /** Every rental line splits the combined charge within a cent. */
  lemma PeriodLinesConserve(plan: Plan, charge: real, m: int, last: int, b: Balances)
    requires charge >= 0.0
    ensures var r := Periods(plan, charge, m, last, b);
            forall k :: 0 <= k < |r| ==> -0.01 <= EntryPatientOf(r[k]) + EntryInsurerOf(r[k]) - charge <= 0.01
  {
    var r := Periods(plan, charge, m, last, b);
    forall k | 0 <= k < |r|
      ensures -0.01 <= EntryPatientOf(r[k]) + EntryInsurerOf(r[k]) - charge <= 0.01
    {
      PeriodsFollowOpenings(plan, charge, m, last, b, k);
    }
  }

  /**
    Conservation over the rental periods: the patient and insurer columns
    together are within a cent per line of one combined charge per line.
   */
  lemma PeriodsConservation(plan: Plan, charge: real, m: int, last: int, b: Balances)
    requires charge >= 0.0
    ensures var r := Periods(plan, charge, m, last, b);
            -0.01 * |r| as real <= Sum(r, EntryPatientOf) + Sum(r, EntryInsurerOf) - Times(|r|, charge) <= 0.01 * |r| as real
  {
    var r := Periods(plan, charge, m, last, b);
    forall k | 0 <= k < |r|
      ensures -0.01 <= EntryPatientOf(r[k]) + EntryInsurerOf(r[k]) - charge <= 0.01
    {
      PeriodsFollowOpenings(plan, charge, m, last, b, k);
    }
    SumPairWithinCents(r, EntryPatientOf, EntryInsurerOf, charge);
  }

  /**
    The schedule table (lines 164-174): the setup month, labelled with the
    effective month and carrying the rounded first-month totals, followed by
    periods 2..`months`.
   */
  function Schedule(plan: Plan, charge: real, months: int, firstPatient: real, firstInsurer: real, b: Balances)
    : (r: seq<MonthEntry>)
    ensures |r| == if months >= 2 then months else 1
    ensures r[0] == MonthEntry(plan.effMonth, Round2(firstPatient), Round2(firstInsurer))
    ensures forall k :: 1 <= k < |r| ==> r[k].month == MonthIndex(plan.effMonth, k + 1)
  {
    [MonthEntry(plan.effMonth, Round2(firstPatient), Round2(firstInsurer))]
      + Periods(plan, charge, 2, months, b)
  }

  /** The schedule runs through consecutive calendar months, starting at the effective month. */
  lemma ScheduleMonthsConsecutive(plan: Plan, charge: real, months: int, fp: real, fi: real, b: Balances, k: int)
    requires 1 <= plan.effMonth <= 12
    requires 0 <= k < |Schedule(plan, charge, months, fp, fi, b)|
    ensures var r := Schedule(plan, charge, months, fp, fi, b);
            && 1 <= r[k].month <= 12
            && (k + 1 < |r| ==> r[k + 1].month == NextMonth(r[k].month))
  {
    MonthIndexStart(plan.effMonth);
    MonthIndexAdvances(plan.effMonth, k + 1);
  }

  /**
    The loop of lines 164-174 as written: one running pair of balances,
    reset to the full plan amounts in the reset month, and one line appended
    per period. It computes what `Schedule` describes.
   */
  method ScheduleLoop(plan: Plan, charge: real, months: int, firstPatient: real, firstInsurer: real, bal: Balances)
    returns (schedule: seq<MonthEntry>)
    ensures schedule == Schedule(plan, charge, months, firstPatient, firstInsurer, bal)
  {
    schedule := [MonthEntry(plan.effMonth, Round2(firstPatient), Round2(firstInsurer))];
    var yearBal := bal;
    var m := 2;
    while m <= months
      invariant 2 <= m
      invariant schedule + Periods(plan, charge, m, months, yearBal)
             == Schedule(plan, charge, months, firstPatient, firstInsurer, bal)
      decreases months - m
    {
      var entering := yearBal;
      var idx := MonthIndex(plan.effMonth, m);
      if idx == plan.resetMonth {
        yearBal := plan.Full();
      }
      var s := ApplyCostShare(charge, yearBal, plan.rate);
      var entry := MonthEntry(idx, s.patient, s.insurer);
      assert yearBal == RolloverAt(plan, m, entering);
      UnfoldPeriods(plan, charge, m, months, entering);
      assert schedule + ([entry] + Periods(plan, charge, m + 1, months, s.after))
          == (schedule + [entry]) + Periods(plan, charge, m + 1, months, s.after);
      schedule := schedule + [entry];
      yearBal := s.after;
      m := m + 1;
    }
  }
}

=== FILE: setup_charges.dfy ===
/**
  The setup pass (FSLOGIC_UPLOAD.py lines 139-153): every setup row (one-time
  supplies and the first month of each rental) is run through the allocator in
  order, the balances passing from each row to the next, starting from the
  plan's remaining deductible and OOP balances.
 */
module SetupCharges {
  import opened Money
  import opened CostShare

  /**
    One row of the setup table as the operator left it. `firstMonth` stands for
    the test `"(1st Month)" in description` of line 150.
   */
  datatype SetupRow = SetupRow(code: string, description: string, price: real, firstMonth: bool)

  /** A row of the cost-share table: the row and its two (rounded) shares. */
  datatype ChargeOutcome = ChargeOutcome(row: SetupRow, patient: real, insurer: real)

  /** The outcome rows of a pass and the balances it leaves behind. */
  datatype PassResult = PassResult(outcomes: seq<ChargeOutcome>, balances: Balances)

  /** A remaining balance: what is left of `total` once `met` is paid, never below zero. */
  function Remaining(total: real, met: real): (r: real)
    ensures r >= 0.0
    ensures met <= total ==> r + met == total
    ensures met >= total ==> r == 0.0
    ensures met >= 0.0 ==> r <= Max(total, 0.0)
  {
    Max(total - met, 0.0)
  }

  function PriceOf(r: SetupRow): real { r.price }
  function PatientOf(o: ChargeOutcome): real { o.patient }
  function InsurerOf(o: ChargeOutcome): real { o.insurer }
  function FirstMonthPatientOf(o: ChargeOutcome): real { if o.row.firstMonth then o.patient else 0.0 }
  function FirstMonthInsurerOf(o: ChargeOutcome): real { if o.row.firstMonth then o.insurer else 0.0 }

  predicate PricesNonNegative(rows: seq<SetupRow>) {
    forall i :: 0 <= i < |rows| ==> rows[i].price >= 0.0
  }

  /** The loop of lines 145-153: allocate each row with the balances left by the one before. */
  function RunSetup(rows: seq<SetupRow>, b: Balances, rate: real): (r: PassResult)
    ensures |r.outcomes| == |rows|
    decreases |rows|
  {
    if |rows| == 0 then PassResult([], b)
    else
      var s := ApplyCostShare(rows[0].price, b, rate);
      var rest := RunSetup(rows[1..], s.after, rate);
      PassResult([ChargeOutcome(rows[0], s.patient, s.insurer)] + rest.outcomes, rest.balances)
  }

  /** One step of the pass: the first row, then the rest from the balances it left. */
  lemma UnfoldRunSetup(rows: seq<SetupRow>, b: Balances, rate: real)
    requires |rows| > 0
    ensures var s := ApplyCostShare(rows[0].price, b, rate);
            var rest := RunSetup(rows[1..], s.after, rate);
            RunSetup(rows, b, rate) == PassResult([ChargeOutcome(rows[0], s.patient, s.insurer)] + rest.outcomes, rest.balances)
  {
  }

  /** Running two row lists back to back is running the second from where the first stopped. */
  lemma {:induction false} RunSetupAppend(a: seq<SetupRow>, c: seq<SetupRow>, b: Balances, rate: real)
    ensures var p := RunSetup(a, b, rate);
            var q := RunSetup(c, p.balances, rate);
            RunSetup(a + c, b, rate) == PassResult(p.outcomes + q.outcomes, q.balances)
    decreases |a|
  {
    if |a| == 0 {
      assert a + c == c;
    } else {
      var s := ApplyCostShare(a[0].price, b, rate);
      var o := ChargeOutcome(a[0], s.patient, s.insurer);
      assert (a + c)[0] == a[0];
      assert (a + c)[1..] == a[1..] + c;
      RunSetupAppend(a[1..], c, s.after, rate);
      UnfoldRunSetup(a + c, b, rate);
      UnfoldRunSetup(a, b, rate);
      var p' := RunSetup(a[1..], s.after, rate);
      var q := RunSetup(c, p'.balances, rate);
      assert [o] + (p'.outcomes + q.outcomes) == ([o] + p'.outcomes) + q.outcomes;
    }
  }

  /** Adding a row at the end allocates it against the balances the earlier rows left. */
  lemma RunSetupSnoc(rows: seq<SetupRow>, x: SetupRow, b: Balances, rate: real)
    ensures var p := RunSetup(rows, b, rate);
            var s := ApplyCostShare(x.price, p.balances, rate);
            RunSetup(rows + [x], b, rate) == PassResult(p.outcomes + [ChargeOutcome(x, s.patient, s.insurer)], s.after)
  {
    var p := RunSetup(rows, b, rate);
    RunSetupAppend(rows, [x], b, rate);
    UnfoldRunSetup([x], p.balances, rate);
    assert [x][1..] == [];
  }

  /**
    Each row is allocated against exactly the balances that the rows before it
    left: outcome `i` is `apply_cost_share` of row `i` on the balances after
    rows `0..i-1`.
   */
  lemma SetupThreadsBalances(rows: seq<SetupRow>, b: Balances, rate: real, i: int)
    requires 0 <= i < |rows|
    ensures var before := RunSetup(rows[..i], b, rate).balances;
            var s := ApplyCostShare(rows[i].price, before, rate);
            RunSetup(rows, b, rate).outcomes[i] == ChargeOutcome(rows[i], s.patient, s.insurer)
  {
    assert rows == rows[..i] + rows[i..];
    RunSetupAppend(rows[..i], rows[i..], b, rate);
  }

  /**
    With non-negative prices, balances and rate in [0, 1], the pass leaves both
    balances non-negative and no larger than they started.
   */
  lemma {:induction false} SetupBalancesShrink(rows: seq<SetupRow>, b: Balances, rate: real)
    requires PricesNonNegative(rows) && b.NonNegative() && 0.0 <= rate <= 1.0
    ensures RunSetup(rows, b, rate).balances.NonNegative()
    ensures RunSetup(rows, b, rate).balances.Within(b)
    decreases |rows|
  {
    if |rows| > 0 {
      var s := ApplyCostShare(rows[0].price, b, rate);
      SetupBalancesShrink(rows[1..], s.after, rate);
    }
  }

  /**
    Conservation over the pass: the patient and insurer columns add up to the
    allowed column, up to one cent of rounding per row.
   */
  lemma {:induction false} SetupConservation(rows: seq<SetupRow>, b: Balances, rate: real)
    requires PricesNonNegative(rows)
    ensures var os := RunSetup(rows, b, rate).outcomes;
            -0.01 * |rows| as real <= Sum(os, PatientOf) + Sum(os, InsurerOf) - Sum(rows, PriceOf) <= 0.01 * |rows| as real
    decreases |rows|
  {
    if |rows| > 0 {
      var s := ApplyCostShare(rows[0].price, b, rate);
      var os := RunSetup(rows, b, rate).outcomes;
      var rest := RunSetup(rows[1..], s.after, rate).outcomes;
      assert os[1..] == rest;
      SetupConservation(rows[1..], s.after, rate);
    }
  }

  /**
    The loop of lines 145-153 as written: one running pair of balances,
    updated after every row, and the first-month shares accumulated on the
    side (lines 150-152). It computes what `RunSetup` describes.
   */
  method SetupLoop(rows: seq<SetupRow>, start: Balances, rate: real)
    returns (outcomes: seq<ChargeOutcome>, bal: Balances, firstPatient: real, firstInsurer: real)
    ensures PassResult(outcomes, bal) == RunSetup(rows, start, rate)
    ensures firstPatient == Sum(outcomes, FirstMonthPatientOf)
    ensures firstInsurer == Sum(outcomes, FirstMonthInsurerOf)
  {
    bal := start;
    outcomes := [];
    firstPatient, firstInsurer := 0.0, 0.0;
    var i := 0;
    while i < |rows|
      invariant 0 <= i <= |rows|
      invariant RunSetup(rows[..i], start, rate) == PassResult(outcomes, bal)
      invariant firstPatient == Sum(outcomes, FirstMonthPatientOf)
      invariant firstInsurer == Sum(outcomes, FirstMonthInsurerOf)
    {
      var s := ApplyCostShare(rows[i].price, bal, rate);
      var o := ChargeOutcome(rows[i], s.patient, s.insurer);
      assert rows[..i + 1] == rows[..i] + [rows[i]];
      RunSetupSnoc(rows[..i], rows[i], start, rate);
      SumAppend(outcomes, [o], FirstMonthPatientOf);
      SumAppend(outcomes, [o], FirstMonthInsurerOf);
      outcomes := outcomes + [o];
      if rows[i].firstMonth {
        firstPatient := firstPatient + s.patient;
        firstInsurer := firstInsurer + s.insurer;
      }
      bal := s.after;
      i := i + 1;
    }
    assert rows[..|rows|] == rows;
  }
}
